=== FILE: README.md ===
# Calorie tracker: item store, storage mirror and event handlers

A Dafny model of the single-file calorie tracker `app.js`. It covers:

- **ItemCtrl** (module `Items`): an ordered list of `Item(id, name, calories)` entries with
  `addItem`, `getItemById`, `updateItem`, `deleteItem` and `getTotalCalories`. The "current
  item" of `setCurrentItem` / `getCurrentItem` is the `current` field of the app state.
  `clearAllItems` is the `items := []` step of `App.ClearAllItemsClick`.
- **StorageCtrl** (module `Storage`): the single storage key `"items"` is an
  `Option<seq<Item>>`, `None` meaning the key is absent. The JSON text between memory and
  storage is taken to round-trip exactly.
- **Row ids** (module `RowIds`): a rendered row gets the DOM id `"item-" + id`, and an edit
  click reads it back with `split("-")[1]` followed by `parseInt`. `Split`, decimal printing
  and `parseInt` without a radix are modelled as written. That includes the `0x`/`0X` prefix,
  which switches parsing to base 16. The round trip is proved for every non-negative id. A negative id would print as `"item--5"`, and the same steps then read NaN.
- **App handlers** (module `App`): `itemAddSubmit`, `itemEditClick`, `itemUpdateSubmit`,
  `itemDeleteSubmit`, `backSubmit` and `clearAllItemsClick` are pure transitions over
  `AppState(items, current, slot, editing)`. `editing` stands for the visibility of the
  update/delete/back buttons, which `showEditState` and `clearEditState` toggle. `Step` runs one
  handler. When the handler throws a TypeError on a null value, the writes it made before the
  throwing line stay and the page goes on handling later events. `Run` folds `Step` over a
  sequence of events.

The main invariant is `App.Valid`: reading the storage key gives back the in-memory list, and
ids are non-negative and strictly increasing. Every handler preserves it (`App.StepKeepsValid`),
and so does any sequence of handlers (`App.RunKeepsValid`). Increasing ids are in particular
unique, which is what the deletion loop needs. These results hold for numeric calories only.
Each entry's calories are an integer here. In the source, an entry added with an empty calories
field keeps NaN in memory. `JSON.stringify` writes NaN to the key as `null`, so the key then no
longer reads back the in-memory list.

The model follows the code, including where it departs from what one would expect:

- One would expect ids never to be reused. Instead, an id is the last entry's id plus one, so
  deleting the newest entry makes its id available again (`Items.IdReusedAfterDeletingNewest`).
- One would expect deleting the selected entry to clear the selection. It does not:
  `App.ItemDeleteSubmit` keeps `current`.
- One would expect adding to need both fields. The add handler accepts an entry when the name
  OR the calories field is non-empty.
- Updating without a selection throws on a non-empty list instead of doing nothing. The update
  and delete storage methods throw when the key is absent. These cases are preconditions of the
  handlers and `Throws` cases of `App.Step`. From a valid state a throwing update or delete
  changes nothing, and a failed edit click only clears the selection.
- Clear-all does not leave edit mode, but it removes the key. A click on the still-visible
  update or delete button then throws (`App.ClearAllWhileEditingStrandsEditButtons`).
- Reading a malformed key is not caught: `JSON.parse` would throw. Here the JSON text is
  abstracted away, so this case does not arise in the model.

## Model

| member | source | states |
|---|---|---|
| Items.NextId | app.js:84-90 | the id for a new entry exceeds every id of a list with increasing ids, and is non-negative when all ids are |
| Items.AddItem | app.js:83-100 | appends exactly one entry with the given name and calories, leaves earlier entries unchanged, gives id 0 on an empty list and last id + 1 otherwise, keeps ids increasing and non-negative, and the new id differs from every existing id |
| Items.GetItemById | app.js:102-110 | None exactly when no entry has the id; otherwise an entry of the list with that id after which no entry has the id (the last match) |
| Items.GetItemByIdUnique | app.js:102-110 | with unique ids, looking up the id at any position returns the entry at that position |
| Items.UpdateItem | app.js:112-120 | same length and ids; entries whose id is the selection's id get the new name and calories; every other entry is unchanged |
| Items.DeleteItem | app.js:122-128 | with unique ids: an absent id leaves the list unchanged; otherwise the result is the list with exactly the matching position removed, in order; no remaining entry has the id |
| Items.DeleteBySplicing | app.js:122-128 | the forward scan that splices out matches while iterating computes the same list as DeleteItem when ids are unique |
| Items.GetTotalCalories | app.js:142-149 | the accumulated total equals the sum of calories over the list |
| Items.AddItemTotal | app.js:83-100 | adding an entry raises the total by its calories |
| Items.DeleteItemTotal | app.js:122-128 | deleting the entry at a position lowers the total by that entry's calories |
| Items.UpdateItemTotal | app.js:112-120 | updating the selected entry changes the total by new calories minus old calories |
| Items.DeleteItemKeepsIdsIncreasing | app.js:122-128 | deletion keeps ids strictly increasing and non-negative |
| Items.IdReusedAfterDeletingNewest | app.js:86-87 | adding an entry and then deleting it makes the next id the same as before the addition |
| Storage.GetItemsFromStorage | app.js:17-25 | an absent key reads as the empty list, a present key as the stored list |
| Storage.StoreItem | app.js:4-15 | after storing, the key is present and reads as the previous contents (empty if absent) followed by the item |
| Storage.UpdateItemStorage | app.js:27-38 | needs the key present; keeps length and ids; stored entries with the selection's id get the new name and calories; entries with other ids are unchanged |
| Storage.DeleteItemStorage | app.js:40-48 | needs the key present and unique ids; removes exactly the position holding the selection's id, or changes nothing if there is none |
| Storage.ClearLocalStorage | app.js:50-52 | clearing removes the key, which then reads as the empty list |
| RowIds.NatToString | app.js:178 | decimal printing of a non-negative id: non-empty, digits only, no leading zero (so 0 prints as the single digit "0"), and its digit value is the number |
| RowIds.IntToString | app.js:178 | a template literal prints a non-negative id as its decimal digits, and a negative one as "-" followed by the digits of its magnitude, in both cases without a leading zero |
| RowIds.RowId | app.js:178 | no contract of its own: the row id is "item", "-" and the printed id; RowIds.RowIdRoundTrip and RowIds.NegativeRowIdIsNaN state what reading it back gives |
| RowIds.ParseInt | app.js:298 | after a 0x/0X prefix, a number exactly when a hexadecimal digit follows, and then the value of the longest run of hexadecimal digits; otherwise a number exactly when the text starts with a decimal digit, and then the value of the longest run of decimal digits; never negative |
| RowIds.ParseIntHexExamples | app.js:298 | "0x" is NaN, "0x1F" is 31, "0x1g" is 1 and "12px" is 12 |
| RowIds.Split | app.js:296 | the parts glued back with the separator give the input, and no part contains the separator |
| RowIds.ParseRowId | app.js:296-298 | fewer than two parts after splitting on "-" gives NaN (parseInt(undefined)); otherwise element 1 parsed as by RowIds.ParseInt; never negative |
| RowIds.RowIdRoundTrip | app.js:294-298 | for every non-negative id, splitting its row id on "-" and parsing element 1 gives the id back |
| RowIds.NegativeRowIdIsNaN | app.js:294-298 | for a negative id, the same steps give NaN |
| App.Init | app.js:66-75 | the list is loaded from the key, nothing is selected, the form is in add mode, and storage mirrors memory |
| App.ItemAddSubmit | app.js:270-289 | the state changes if and only if the name or the calories field is non-empty; then exactly the new entry is appended; sync and validity are preserved |
| App.ItemEditClick | app.js:291-307 | selects an entry of the list whose id is the parsed row id and enters edit mode; list and storage unchanged |
| App.EditClickOnRenderedRow | app.js:294-302 | in a valid state, clicking any rendered row's edit icon cannot throw and selects exactly that row's entry |
| App.ItemUpdateSubmit | app.js:309-319 | rewrites only the selected entry's name and calories, keeps ids and order, leaves edit mode, and preserves sync and validity |
| App.ItemDeleteSubmit | app.js:321-330 | removes exactly the selected entry, keeps the rest in order, leaves the selection set, leaves edit mode, and preserves sync |
| App.DeleteSubmitKeepsValid | app.js:321-330 | in a valid state with a selection and a present key, deleting keeps the state valid |
| App.BackSubmit | app.js:332-335 | leaves edit mode; list, selection and storage are untouched |
| App.ClearAllItemsClick | app.js:337-345 | the list is empty, the total is 0, the key is removed, and the state is valid; selection and form mode are kept |
| App.Throws | app.js:28-43 | no contract of its own: the null dereferences of the handlers (absent key read by the storage update at lines 28-30 and delete at 41-43, no selection at 115 and 323, no entry found at 201); App.StepKeepsValid states what a throwing handler leaves behind |
| App.UpdateUntilThrow | app.js:309-319 | what a throwing update leaves, the throw being at line 115 or in the storage update at lines 28-30: key, selection and form mode untouched, and when storage mirrors memory nothing changes at all |
| App.DeleteUntilThrow | app.js:321-327 | what a throwing delete leaves, the throw being at line 323 or in the storage delete at lines 41-42: key, selection and form mode untouched, and when storage mirrors memory nothing changes at all |
| App.Step | app.js:270-345 | no contract of its own: one handler per event, a throwing one keeping the writes made before it threw; App.StepKeepsValid states its properties |
| App.StepKeepsValid | app.js:270-345 | from a valid state every handler leads to a valid state; a throwing update or delete leaves the state unchanged, and a failed edit click only clears the selection |
| App.Run | app.js:270-345 | no contract of its own: the events are handled in order whether or not a handler throws; App.RunKeepsValid states its properties |
| App.RunKeepsValid | app.js:270-345 | after any sequence of handlers from a valid state, throwing or not, storage reads back exactly the in-memory list and ids stay increasing |
| App.ClearThenUpdateThenBack | app.js:309-345 | while editing, clear-all, a throwing update click and back leave an empty list, an absent key and add mode |
| App.NonEmptyListHasSlot | app.js:27-48 | when storage mirrors memory, a non-empty list means the key is present and holds that list |
| App.ClearAllWhileEditingStrandsEditButtons | app.js:337-345 | clearing while editing keeps edit mode but removes the key, so a following update or delete throws |
| App.SteakAndCookieScenario | app.js:83-100 | adding "Steak Dinner" (1200) then "Cookie" (400) to an empty store gives ids 0 and 1, the same list in storage, and a total of 1600 |
| App.DeleteSteakScenario | app.js:321-330 | then editing row "item-0" and deleting leaves only the cookie in memory and in storage, with the stale selection still set, and a total of 400 |

## Left out

- Rendering: `UICtrl` (list HTML, showing and hiding elements, reading and clearing the inputs, the total shown on screen) and the event-listener wiring, including the suppressed Enter key and `preventDefault`. These are display and I/O. The form mode survives only as `editing`.
- `localStorage` and the JSON text: the key is an optional list with an exact round trip. Malformed stored text is therefore outside the model.
- `parseInt` of the calories field: calories are passed to the handlers already parsed, as integers. A NaN value and its propagation into the total are not modelled. The add guard still reads the raw field text.
- App.ItemAddSubmit: `Add(name, "", c)` stores the integer `c`. The source stores NaN in memory and `null` in the key. App.Valid and App.RunKeepsValid therefore describe the source only when every accepted calories field parses to a number.
- Number width: ids, calories and totals are unbounded integers here. JavaScript numbers are IEEE doubles, so the source is exact only below 2^53.
- Items.GetTotalCalories: `total == SumCalories(items)` holds in the source only while the running total stays below 2^53. Above that, `total += item.calories` rounds.
- Items.NextId: `last id + 1` stops growing at 2^53. From there on, the new id can equal an existing id.
- Items.AddItem: its fresh-id and increasing-id promises inherit the 2^53 bound of Items.NextId.
- RowIds.NatToString: a template literal prints values of 10^21 and above in exponent form (`1e+21`). The model prints all digits.
- RowIds.ParseInt: does not model leading blanks or a sign, because a split part of a row id never contains them. The decimal path and the `0x`/`0X` hexadecimal path are modelled.
- Items.DeleteItem: modelled only for unique ids. With adjacent duplicate ids, the source's splice-while-scanning skips the second match. Every valid state has unique ids, and `Items.DeleteBySplicing` proves the scan and the model agree under that condition.
- App.ItemUpdateSubmit: keeps the selection's pre-update value. The source mutates the same object in place. Later handlers read only its id, which the update does not change.
- App.Step: the screen updates a handler makes before it throws are display and not modelled. Deleting among duplicate ids gives `None`, since Items.DeleteItem is modelled only for unique ids.
- A click in the list outside an edit icon does nothing in the source. `App.ItemEditClick` models only the icon click.
- `getItems` and `logData` return the state as it is. `data.totalCalories` only caches the last total. Neither is modelled separately.
- Several tabs sharing the key: this is concurrency, and last writer wins.

=== FILE: app.dfy ===
/**
 * The app controller's event handlers as pure transitions. Rendering, the form
 * inputs and the running total shown on screen are left to the view; what
 * remains is the item list, the selection, the storage key, and whether the
 * form shows the edit buttons (`clearEditState` / `showEditState`).
 */
module App {
  import opened Wrappers
  import opened Items
  import opened Storage
  import opened RowIds

  datatype AppState = AppState(items: seq<Item>, current: Option<Item>, slot: Slot, editing: bool)

  /** Reading the storage key gives back exactly the in-memory list. */
  predicate InSync(s: AppState) {
    GetItemsFromStorage(s.slot) == s.items
  }

  /** The state every handler keeps: storage mirrors memory, ids increase and are non-negative. */
  predicate Valid(s: AppState) {
    InSync(s) && IdsIncreasing(s.items) && IdsNonNegative(s.items)
  }

  /** Page load: the list is read from storage, nothing is selected, the form is in add mode. */
  function Init(slot: Slot): (s: AppState)
    ensures InSync(s) && s.current.None? && !s.editing
    ensures s.slot == slot
    ensures IdsIncreasing(GetItemsFromStorage(slot)) && IdsNonNegative(GetItemsFromStorage(slot)) ==> Valid(s)
  {
    AppState(GetItemsFromStorage(slot), None, slot, false)
  }

  /**
   * `itemAddSubmit`: `caloriesField` is the raw text of the calories input and
   * `calories` its parsed value. Either field being non-empty lets the item through.
   */
  function ItemAddSubmit(s: AppState, name: string, caloriesField: string, calories: int): (r: AppState)
    ensures r != s <==> name != "" || caloriesField != ""
    ensures r != s ==> r.items == s.items + [Item(NextId(s.items), name, calories)]
    ensures r.current == s.current && r.editing == s.editing
    ensures InSync(s) ==> InSync(r)
    ensures Valid(s) ==> Valid(r)
  {
    if name != "" || caloriesField != "" then
      var items := AddItem(s.items, name, calories);
      assert items == s.items + [items[|s.items|]];
      s.(items := items, slot := StoreItem(s.slot, items[|s.items|]))
    else s
  }

  /**
   * `itemEditClick` on an edit icon: the row id is parsed back to an item id and
   * the entry with it becomes the selection. Filling the form reads the
   * selection's fields, which throws unless an entry was found.
   */
  function ItemEditClick(s: AppState, rowId: string): (r: AppState)
    requires ParseRowId(rowId).Some?
    requires GetItemById(s.items, ParseRowId(rowId).value).Some?
    ensures r.items == s.items && r.slot == s.slot && r.editing
    ensures r.current.Some? && r.current.value in s.items
    ensures ParseRowId(rowId) == Some(r.current.value.id)
    ensures Valid(s) ==> Valid(r)
  {
    var id := ParseRowId(rowId).value;
    s.(current := GetItemById(s.items, id), editing := true)
  }

  /** Clicking the edit icon of any rendered row selects exactly that row's entry. */
  lemma EditClickOnRenderedRow(s: AppState, p: int)
    requires Valid(s)
    requires 0 <= p < |s.items|
    ensures ParseRowId(RowId(s.items[p].id)) == Some(s.items[p].id)
    ensures GetItemById(s.items, s.items[p].id).Some?
    ensures ItemEditClick(s, RowId(s.items[p].id)).current == Some(s.items[p])
  {
    RowIdRoundTrip(s.items[p].id);
    IncreasingIdsAreUnique(s.items);
    GetItemByIdUnique(s.items, p);
  }

  /**
   * `itemUpdateSubmit`: rewrites the selected entry in memory and in storage
   * and returns the form to add mode. The selection keeps its id, the only
   * field later handlers read.
   */
  function ItemUpdateSubmit(s: AppState, name: string, calories: int): (r: AppState)
    requires s.slot.Some?
    requires |s.items| > 0 ==> s.current.Some?
    requires |s.slot.value| > 0 ==> s.current.Some?
    ensures |r.items| == |s.items|
    ensures forall i :: 0 <= i < |s.items| ==> r.items[i].id == s.items[i].id
    ensures forall i :: 0 <= i < |s.items| && s.items[i].id == s.current.value.id ==>
      r.items[i].name == name && r.items[i].calories == calories
    ensures forall i :: 0 <= i < |s.items| && s.items[i].id != s.current.value.id ==> r.items[i] == s.items[i]
    ensures r.current == s.current && !r.editing
    ensures InSync(s) ==> InSync(r)
    ensures Valid(s) ==> Valid(r)
  {
    s.(items := UpdateItem(s.items, s.current, name, calories),
       slot := UpdateItemStorage(s.slot, name, calories, s.current),
       editing := false)
  }

  /**
   * `itemDeleteSubmit`: removes the selected entry from memory and storage and
   * returns the form to add mode. The selection itself is NOT cleared.
   */
  function ItemDeleteSubmit(s: AppState): (r: AppState)
    requires s.current.Some? && s.slot.Some?
    requires UniqueIds(s.items) && UniqueIds(s.slot.value)
    ensures forall p :: 0 <= p < |s.items| && s.items[p].id == s.current.value.id ==>
      r.items == s.items[..p] + s.items[p + 1..]
    ensures (forall i :: 0 <= i < |s.items| ==> s.items[i].id != s.current.value.id) ==> r.items == s.items
    ensures r.current == s.current && !r.editing && r.slot.Some?
    ensures InSync(s) ==> InSync(r)
  {
    s.(items := DeleteItem(s.items, s.current.value.id),
       slot := DeleteItemStorage(s.slot, s.current.value),
       editing := false)
  }

  lemma DeleteSubmitKeepsValid(s: AppState)
    requires Valid(s)
    requires s.current.Some? && s.slot.Some?
    ensures UniqueIds(s.items) && UniqueIds(s.slot.value)
    ensures Valid(ItemDeleteSubmit(s))
  {
    DeleteItemKeepsIdsIncreasing(s.items, s.current.value.id);
  }

  /** `backSubmit`: leaves edit mode; nothing else changes. */
  function BackSubmit(s: AppState): (r: AppState)
    ensures r.items == s.items && r.current == s.current && r.slot == s.slot && !r.editing
    ensures Valid(s) ==> Valid(r)
  {
    s.(editing := false)
  }

  /**
   * `clearAllItemsClick`: empties the list (`clearAllItems`) and removes the
   * storage key. The selection and the form mode are left as they were.
   */
  function ClearAllItemsClick(s: AppState): (r: AppState)
    ensures r.items == [] && SumCalories(r.items) == 0
    ensures r.slot.None? && Valid(r)
    ensures r.current == s.current && r.editing == s.editing
  {
    s.(items := [], slot := ClearLocalStorage())
  }

  datatype Event =
    | Add(name: string, caloriesField: string, calories: int)
    | Edit(rowId: string)
    | Update(name: string, calories: int)
    | Delete
    | Back
    | ClearAll

  /** Where the source throws a TypeError on a null dereference. */
  predicate Throws(s: AppState, e: Event) {
    match e
    case Edit(rowId) => ParseRowId(rowId).None? || GetItemById(s.items, ParseRowId(rowId).value).None?
    case Update(_, _) =>
      || s.slot.None?
      || (|s.items| > 0 && s.current.None?)
      || (|s.slot.value| > 0 && s.current.None?)
    case Delete => s.current.None? || s.slot.None?
    case _ => false
  }

  /**
   * What `itemUpdateSubmit` leaves behind when it throws: with entries and no
   * selection the first step of the scan throws; otherwise the in-memory update
   * is done and the storage update throws.
   */
  function UpdateUntilThrow(s: AppState, name: string, calories: int): (r: AppState)
    requires Throws(s, Update(name, calories))
    ensures r.slot == s.slot && r.current == s.current && r.editing == s.editing
    ensures InSync(s) ==> r == s
  {
    if |s.items| > 0 && s.current.None? then s
    else s.(items := UpdateItem(s.items, s.current, name, calories))
  }

  /**
   * What `itemDeleteSubmit` leaves behind when it throws: without a selection
   * nothing has happened yet; otherwise the in-memory delete is done and the
   * storage delete throws on the absent key.
   */
  function DeleteUntilThrow(s: AppState): (r: AppState)
    requires Throws(s, Delete) && UniqueIds(s.items)
    ensures r.slot == s.slot && r.current == s.current && r.editing == s.editing
    ensures InSync(s) ==> r == s
  {
    if s.current.None? then s
    else s.(items := DeleteItem(s.items, s.current.value.id))
  }

  /**
   * One handler run. An uncaught TypeError ends only that handler: the writes
   * made before the throwing line stay and later events are still handled. A
   * failed edit click has already stored the null selection when filling the
   * form throws. None only for deleting among duplicate ids, which the model
   * leaves out and no valid state has.
   */
  function Step(s: AppState, e: Event): Option<AppState> {
    match e
    case Add(name, field, calories) => Some(ItemAddSubmit(s, name, field, calories))
    case Edit(rowId) =>
      if ParseRowId(rowId).Some? && GetItemById(s.items, ParseRowId(rowId).value).Some?
      then Some(ItemEditClick(s, rowId)) else Some(s.(current := None))
    case Update(name, calories) =>
      if Throws(s, Update(name, calories)) then Some(UpdateUntilThrow(s, name, calories))
      else Some(ItemUpdateSubmit(s, name, calories))
    case Delete =>
      if !UniqueIds(s.items) then None
      else if Throws(s, Delete) then Some(DeleteUntilThrow(s))
      else if UniqueIds(s.slot.value) then Some(ItemDeleteSubmit(s)) else None
    case Back => Some(BackSubmit(s))
    case ClearAll => Some(ClearAllItemsClick(s))
  }

  /**
   * From a valid state every handler leads to a valid state. One that throws
   * changes nothing, except that a failed edit click clears the selection.
   */
  lemma StepKeepsValid(s: AppState, e: Event)
    requires Valid(s)
    ensures Step(s, e).Some? && Valid(Step(s, e).value)
    ensures Throws(s, e) && !e.Edit? ==> Step(s, e).value == s
    ensures Throws(s, e) && e.Edit? ==> Step(s, e).value == s.(current := None)
  {
    IncreasingIdsAreUnique(s.items);
    if e.Delete? && !Throws(s, e) {
      DeleteSubmitKeepsValid(s);
    }
  }

  /** Handles the events in order, as the page does, whether or not a handler throws. */
  function Run(s: AppState, events: seq<Event>): Option<AppState>
    decreases |events|
  {
    if |events| == 0 then Some(s)
    else
      match Step(s, events[0])
      case None => None
      case Some(t) => Run(t, events[1..])
  }

  /** After every handler of any event sequence, storage reads back exactly the in-memory list. */
  lemma {:induction false} RunKeepsValid(s: AppState, events: seq<Event>)
    requires Valid(s)
    ensures Run(s, events).Some? && Valid(Run(s, events).value)
    decreases |events|
  {
    if |events| > 0 {
      StepKeepsValid(s, events[0]);
      RunKeepsValid(Step(s, events[0]).value, events[1..]);
    }
  }

  /** Clear-all while editing, a throwing update click, then back: the list and the key stay in step. */
  lemma ClearThenUpdateThenBack(s: AppState, name: string, calories: int)
    requires Valid(s) && s.editing
    ensures Run(s, [ClearAll, Update(name, calories), Back])
      == Some(s.(items := [], slot := None, editing := false))
  {
    var events := [ClearAll, Update(name, calories), Back];
    var s1 := ClearAllItemsClick(s);
    assert Throws(s1, Update(name, calories));
    assert Step(s1, Update(name, calories)) == Some(s1);
    assert Run(s, events) == Run(s1, events[1..]);
    assert events[1..][0] == Update(name, calories) && events[1..][1..] == [Back];
    assert Run(s1, events[1..]) == Run(s1, [Back]);
  }

  /** A non-empty list is always mirrored in a present storage key. */
  lemma NonEmptyListHasSlot(s: AppState)
    requires InSync(s)
    requires |s.items| > 0
    ensures s.slot.Some? && s.slot.value == s.items
  {
  }

  /**
   * Clear-all leaves edit mode on while removing the key, so a following click
   * on the still-visible update or delete button throws.
   */
  lemma ClearAllWhileEditingStrandsEditButtons(s: AppState, name: string, calories: int)
    requires s.editing
    ensures ClearAllItemsClick(s).editing
    ensures Throws(ClearAllItemsClick(s), Update(name, calories))
    ensures Throws(ClearAllItemsClick(s), Delete)
  {
  }

  /** The state after adding "Steak Dinner" (1200) and "Cookie" (400). */
  function SteakAndCookie(): AppState {
    AppState([Item(0, "Steak Dinner", 1200), Item(1, "Cookie", 400)], None,
             Some([Item(0, "Steak Dinner", 1200), Item(1, "Cookie", 400)]), false)
  }

  lemma AddSteak()
    ensures Step(Init(None), Add("Steak Dinner", "1200", 1200))
      == Some(AppState([Item(0, "Steak Dinner", 1200)], None, Some([Item(0, "Steak Dinner", 1200)]), false))
  {
  }

  lemma AddCookie()
    ensures Step(AppState([Item(0, "Steak Dinner", 1200)], None, Some([Item(0, "Steak Dinner", 1200)]), false),
                 Add("Cookie", "400", 400))
      == Some(SteakAndCookie())
  {
    var one := [Item(0, "Steak Dinner", 1200)];
    assert NextId(one) == 1 && "Cookie" != "";
    assert one + [Item(1, "Cookie", 400)] == SteakAndCookie().items;
  }

  /** Adding "Steak Dinner" (1200) then "Cookie" (400) to an empty store gives ids 0 and 1 and a total of 1600. */
  lemma SteakAndCookieScenario()
    ensures Run(Init(None), [Add("Steak Dinner", "1200", 1200), Add("Cookie", "400", 400)]) == Some(SteakAndCookie())
    ensures SumCalories(SteakAndCookie().items) == 1600
  {
    var events := [Add("Steak Dinner", "1200", 1200), Add("Cookie", "400", 400)];
    var s1 := AppState([Item(0, "Steak Dinner", 1200)], None, Some([Item(0, "Steak Dinner", 1200)]), false);
    AddSteak();
    AddCookie();
    assert events[0] == Add("Steak Dinner", "1200", 1200);
    assert Run(Init(None), events) == Run(s1, events[1..]);
    assert events[1..][0] == Add("Cookie", "400", 400) && events[1..][1..] == [];
    assert Run(s1, events[1..]) == Run(SteakAndCookie(), []);
    assert SteakAndCookie().items[..1] == [Item(0, "Steak Dinner", 1200)];
  }

  lemma EditSteak()
    ensures Step(SteakAndCookie(), Edit(RowId(0)))
      == Some(SteakAndCookie().(current := Some(Item(0, "Steak Dinner", 1200)), editing := true))
  {
    assert Valid(SteakAndCookie());
    EditClickOnRenderedRow(SteakAndCookie(), 0);
  }

  lemma DeleteSteak()
    ensures Step(SteakAndCookie().(current := Some(Item(0, "Steak Dinner", 1200)), editing := true), Delete)
      == Some(AppState([Item(1, "Cookie", 400)], Some(Item(0, "Steak Dinner", 1200)),
                       Some([Item(1, "Cookie", 400)]), false))
  {
    var two := SteakAndCookie().items;
    assert UniqueIds(two) && two[0].id == 0;
    assert two[..0] + two[1..] == [Item(1, "Cookie", 400)];
  }

  /** Then clicking the first row's edit icon and deleting leaves only the cookie, everywhere. */
  lemma DeleteSteakScenario()
    ensures SumCalories([Item(1, "Cookie", 400)]) == 400
    ensures Run(SteakAndCookie(), [Edit(RowId(0)), Delete])
      == Some(AppState([Item(1, "Cookie", 400)], Some(Item(0, "Steak Dinner", 1200)),
                       Some([Item(1, "Cookie", 400)]), false))
  {
    var events := [Edit(RowId(0)), Delete];
    var s3 := SteakAndCookie().(current := Some(Item(0, "Steak Dinner", 1200)), editing := true);
    EditSteak();
    DeleteSteak();
    assert events[0] == Edit(RowId(0));
    assert Run(SteakAndCookie(), events) == Run(s3, events[1..]);
    assert events[1..][0] == Delete && events[1..][1..] == [];
  }
}

=== FILE: items.dfy ===
/**
 * The item controller: an ordered list of calorie entries. Every operation is a
 * pure function of the list it is given; the currently selected item is passed
 * explicitly where the controller reads it.
 */
module Items {
  import opened Wrappers

  /** One calorie entry. `calories` is the value already parsed from the form field. */
  datatype Item = Item(id: int, name: string, calories: int)

  /** Ids strictly increase from the front of the list to its back. */
  predicate IdsIncreasing(items: seq<Item>) {
    forall i, j :: 0 <= i < j < |items| ==> items[i].id < items[j].id
  }

  /** No two entries share an id. */
  predicate UniqueIds(items: seq<Item>) {
    forall i, j :: 0 <= i < |items| && 0 <= j < |items| && i != j ==> items[i].id != items[j].id
  }

  predicate IdsNonNegative(items: seq<Item>) {
    forall i :: 0 <= i < |items| ==> items[i].id >= 0
  }

  lemma IncreasingIdsAreUnique(items: seq<Item>)
    requires IdsIncreasing(items)
    ensures UniqueIds(items)
  {
  }

  /** The id `addItem` gives a new entry: 0 on an empty list, otherwise one more than the last id. */
  function NextId(items: seq<Item>): (id: int)
    ensures IdsIncreasing(items) ==> forall i :: 0 <= i < |items| ==> items[i].id < id
    ensures IdsNonNegative(items) ==> id >= 0
  {
    if |items| > 0 then items[|items| - 1].id + 1 else 0
  }

  /** `addItem`: appends a new entry carrying the next id; earlier entries are untouched. */
  function AddItem(items: seq<Item>, name: string, calories: int): (r: seq<Item>)
    ensures |r| == |items| + 1 && r[..|items|] == items
    ensures r[|items|].name == name && r[|items|].calories == calories
    ensures |items| == 0 ==> r[|items|].id == 0
    ensures |items| > 0 ==> r[|items|].id == items[|items| - 1].id + 1
    ensures IdsIncreasing(items) ==> IdsIncreasing(r)
    ensures IdsIncreasing(items) ==> forall i :: 0 <= i < |items| ==> items[i].id != r[|items|].id
    ensures IdsNonNegative(items) ==> IdsNonNegative(r)
  {
    items + [Item(NextId(items), name, calories)]
  }

  /**
   * `getItemById`: the scan keeps overwriting its answer, so the LAST entry with
   * the id wins; None stands for `null`.
   */
  function GetItemById(items: seq<Item>, id: int): (found: Option<Item>)
    ensures found.None? <==> forall i :: 0 <= i < |items| ==> items[i].id != id
    ensures found.Some? ==> found.value.id == id
    ensures found.Some? ==>
      exists i :: 0 <= i < |items| && items[i] == found.value &&
        forall j :: i < j < |items| ==> items[j].id != id
    decreases |items|
  {
    if |items| == 0 then None
    else if items[|items| - 1].id == id then Some(items[|items| - 1])
    else GetItemById(items[..|items| - 1], id)
  }

  /** With unique ids, the entry found is the one at the position holding the id. */
  lemma GetItemByIdUnique(items: seq<Item>, p: int)
    requires UniqueIds(items)
    requires 0 <= p < |items|
    ensures GetItemById(items, items[p].id) == Some(items[p])
  {
  }

  /**
   * `updateItem`: every entry whose id equals the selection's id gets the new
   * name and calories. The source dereferences the selection inside the scan,
   * so a missing selection is only harmless on an empty list.
   */
  function UpdateItem(items: seq<Item>, current: Option<Item>, name: string, calories: int): (r: seq<Item>)
    requires |items| > 0 ==> current.Some?
    ensures |r| == |items|
    ensures forall i :: 0 <= i < |items| ==> r[i].id == items[i].id
    ensures forall i :: 0 <= i < |items| && items[i].id == current.value.id ==>
      r[i].name == name && r[i].calories == calories
    ensures forall i :: 0 <= i < |items| && items[i].id != current.value.id ==> r[i] == items[i]
    decreases |items|
  {
    if |items| == 0 then []
    else
      var head := if items[0].id == current.value.id then Item(items[0].id, name, calories) else items[0];
      [head] + UpdateItem(items[1..], current, name, calories)
  }

  /**
   * `deleteItem`: drops the entry with the id. The source splices inside a
   * forward scan, which skips the element after each removal; for unique ids
   * that is the same as dropping every match (see `DeleteBySplicing`).
   */
  function DeleteItem(items: seq<Item>, id: int): (r: seq<Item>)
    requires UniqueIds(items)
    ensures (forall i :: 0 <= i < |items| ==> items[i].id != id) ==> r == items
    ensures forall p :: 0 <= p < |items| && items[p].id == id ==> r == items[..p] + items[p + 1..]
    ensures forall i :: 0 <= i < |r| ==> r[i].id != id
    decreases |items|
  {
    if |items| == 0 then []
    else
      assert UniqueIds(items[1..]) by {
        forall i, j | 0 <= i < |items| - 1 && 0 <= j < |items| - 1 && i != j
          ensures items[1..][i].id != items[1..][j].id
        {
          assert items[1..][i] == items[i + 1] && items[1..][j] == items[j + 1];
        }
      }
      (if items[0].id == id then [] else [items[0]]) + DeleteItem(items[1..], id)
  }

  /**
   * The source's deletion loop as written: `forEach` fixes its range to the
   * original length, reads the array as it is now, and splices out each match.
   */
  method DeleteBySplicing(items: seq<Item>, id: int) returns (arr: seq<Item>)
    requires UniqueIds(items)
    ensures arr == DeleteItem(items, id)
  {
    arr := items;
    var len := |items|;
    var k := 0;
    ghost var removedAt := -1;
    while k < len
      invariant 0 <= k <= len
      invariant removedAt == -1 ==> arr == items && forall j :: 0 <= j < k ==> items[j].id != id
      invariant removedAt != -1 ==>
        0 <= removedAt < k && items[removedAt].id == id && arr == items[..removedAt] + items[removedAt + 1..]
    {
      if k < |arr| && arr[k].id == id {
        arr := arr[..k] + arr[k + 1..];
        removedAt := k;
      }
      k := k + 1;
    }
  }

  /** The sum of the calories over the entries, accumulated front to back. */
  function SumCalories(items: seq<Item>): int
    decreases |items|
  {
    if |items| == 0 then 0 else SumCalories(items[..|items| - 1]) + items[|items| - 1].calories
  }

  /** `getTotalCalories`: the running total of the source's scan. */
  method GetTotalCalories(items: seq<Item>) returns (total: int)
    ensures total == SumCalories(items)
  {
    total := 0;
    var k := 0;
    while k < |items|
      invariant 0 <= k <= |items|
      invariant total == SumCalories(items[..k])
    {
      assert items[..k + 1][..k] == items[..k];
      total := total + items[k].calories;
      k := k + 1;
    }
    assert items[..|items|] == items;
  }

  lemma {:induction false} SumCaloriesAppend(a: seq<Item>, b: seq<Item>)
    ensures SumCalories(a + b) == SumCalories(a) + SumCalories(b)
    decreases |b|
  {
    if |b| == 0 {
      assert a + b == a;
    } else {
      assert (a + b)[..|a + b| - 1] == a + b[..|b| - 1];
      SumCaloriesAppend(a, b[..|b| - 1]);
    }
  }

  /** Adding an entry raises the total by exactly its calories. */
  lemma AddItemTotal(items: seq<Item>, name: string, calories: int)
    ensures SumCalories(AddItem(items, name, calories)) == SumCalories(items) + calories
  {
    assert AddItem(items, name, calories)[..|items|] == items;
  }

  /** Removing the entry at position `p` lowers the total by its calories. */
  lemma SumCaloriesRemoveAt(items: seq<Item>, p: int)
    requires 0 <= p < |items|
    ensures SumCalories(items[..p] + items[p + 1..]) == SumCalories(items) - items[p].calories
  {
    assert items == (items[..p] + [items[p]]) + items[p + 1..];
    SumCaloriesAppend(items[..p] + [items[p]], items[p + 1..]);
    SumCaloriesAppend(items[..p], [items[p]]);
    SumCaloriesAppend(items[..p], items[p + 1..]);
  }

  /** Deleting the entry at position `p` lowers the total by its calories. */
  lemma DeleteItemTotal(items: seq<Item>, p: int)
    requires UniqueIds(items)
    requires 0 <= p < |items|
    ensures SumCalories(DeleteItem(items, items[p].id)) == SumCalories(items) - items[p].calories
  {
    assert DeleteItem(items, items[p].id) == items[..p] + items[p + 1..];
    SumCaloriesRemoveAt(items, p);
  }

  /** Updating the selected entry replaces its calories in the total. */
  lemma UpdateItemTotal(items: seq<Item>, current: Option<Item>, p: int, name: string, calories: int)
    requires UniqueIds(items)
    requires 0 <= p < |items| && current.Some? && items[p].id == current.value.id
    ensures SumCalories(UpdateItem(items, current, name, calories)) == SumCalories(items) - items[p].calories + calories
  {
    var r := UpdateItem(items, current, name, calories);
    assert items == items[..p] + [items[p]] + items[p + 1..];
    assert r == r[..p] + [r[p]] + r[p + 1..];
    assert r[..p] == items[..p];
    assert r[p + 1..] == items[p + 1..];
    SumCaloriesAppend(items[..p] + [items[p]], items[p + 1..]);
    SumCaloriesAppend(items[..p], [items[p]]);
    SumCaloriesAppend(r[..p] + [r[p]], r[p + 1..]);
    SumCaloriesAppend(r[..p], [r[p]]);
  }

  /** Removing one position keeps increasing ids increasing and non-negative ids non-negative. */
  lemma RemoveAtKeepsIdsIncreasing(items: seq<Item>, p: int)
    requires 0 <= p < |items|
    ensures IdsIncreasing(items) ==> IdsIncreasing(items[..p] + items[p + 1..])
    ensures IdsNonNegative(items) ==> IdsNonNegative(items[..p] + items[p + 1..])
  {
    var rest := items[..p] + items[p + 1..];
    forall i | 0 <= i < |rest| ensures rest[i] == items[if i < p then i else i + 1] {
    }
  }

  /** Deleting keeps ids increasing and non-negative: what remains is a subsequence. */
  lemma DeleteItemKeepsIdsIncreasing(items: seq<Item>, id: int)
    requires IdsIncreasing(items)
    ensures UniqueIds(items) && IdsIncreasing(DeleteItem(items, id))
    ensures IdsNonNegative(items) ==> IdsNonNegative(DeleteItem(items, id))
  {
    IncreasingIdsAreUnique(items);
    if p :| 0 <= p < |items| && items[p].id == id {
      assert DeleteItem(items, id) == items[..p] + items[p + 1..];
      RemoveAtKeepsIdsIncreasing(items, p);
    } else {
      assert DeleteItem(items, id) == items;
    }
  }

  /**
   * Ids come from the last entry rather than from a counter, so deleting the
   * newest entry hands its id to the next addition again.
   */
  lemma IdReusedAfterDeletingNewest(items: seq<Item>, name: string, calories: int)
    requires IdsIncreasing(items)
    ensures UniqueIds(AddItem(items, name, calories))
    ensures NextId(DeleteItem(AddItem(items, name, calories), NextId(items))) == NextId(items)
  {
    var added := AddItem(items, name, calories);
    IncreasingIdsAreUnique(added);
    assert added[|items|].id == NextId(items);
    assert added[..|items|] + added[|items| + 1..] == items;
  }
}

=== FILE: row_ids.dfy ===
/**
 * The DOM id of a rendered row, `"item-" + id`, and the way an edit click reads
 * it back: `split("-")`, take element 1, then `parseInt`. JavaScript prints an
 * integer in decimal with a leading '-' when negative. `parseInt` without a
 * radix reads decimal digits, or hexadecimal ones after a `0x`/`0X` prefix;
 * None stands for NaN.
 */
module RowIds {
  import opened Wrappers

  const Separator: char := '-'
  const Prefix: string := "item"

  /** The two bases `parseInt` picks between when it is given no radix. */
  type Radix = r: int | r == 10 || r == 16 witness 10

  /** A digit of the base; hexadecimal letters may be in either case. */
  predicate IsRadixDigit(c: char, radix: Radix) {
    '0' <= c <= '9' || (radix == 16 && ('a' <= c <= 'f' || 'A' <= c <= 'F'))
  }

  predicate AllDigits(s: string, radix: Radix) {
    forall i :: 0 <= i < |s| ==> IsRadixDigit(s[i], radix)
  }

  function DigitValue(c: char, radix: Radix): (d: nat)
    requires IsRadixDigit(c, radix)
    ensures d < radix
  {
    if '0' <= c <= '9' then c as int - '0' as int
    else if 'a' <= c <= 'f' then c as int - 'a' as int + 10
    else c as int - 'A' as int + 10
  }

  function DigitChar(d: int): (c: char)
    requires 0 <= d < 10
    ensures IsRadixDigit(c, 10) && DigitValue(c, 10) == d
  {
    ('0' as int + d) as char
  }

  /** The value of a string of digits in the base, most significant first. */
  function Value(s: string, radix: Radix): nat
    requires AllDigits(s, radix)
    decreases |s|
  {
    if |s| == 0 then 0
    else Value(s[..|s| - 1], radix) * radix + DigitValue(s[|s| - 1], radix)
  }

  /** Decimal printing of a natural number, without leading zeros. */
  function NatToString(n: nat): (s: string)
    ensures |s| > 0 && AllDigits(s, 10)
    ensures Value(s, 10) == n
    ensures s[0] == '0' ==> n == 0
    ensures |s| > 1 ==> s[0] != '0'
    decreases n
  {
    if n < 10 then [DigitChar(n)]
    else
      var front := NatToString(n / 10);
      assert (front + [DigitChar(n % 10)])[..|front|] == front;
      front + [DigitChar(n % 10)]
  }

  /** How a template literal prints an integer: a '-' before the digits when negative. */
  function IntToString(n: int): (t: string)
    ensures n >= 0 ==> AllDigits(t, 10) && |t| > 0 && Value(t, 10) == n
    ensures n < 0 ==> |t| > 1 && t[0] == '-' && AllDigits(t[1..], 10) && Value(t[1..], 10) == -n
    ensures n >= 0 ==> (|t| > 1 ==> t[0] != '0')
    ensures n < 0 ==> t[1] != '0'
  {
    if n < 0 then "-" + NatToString(-n) else NatToString(n)
  }

  /** The longest prefix of `s` made of digits of the base. */
  function LeadingDigits(s: string, radix: Radix): (d: string)
    ensures |d| <= |s| && d == s[..|d|] && AllDigits(d, radix)
    ensures |d| < |s| ==> !IsRadixDigit(s[|d|], radix)
    decreases |s|
  {
    if |s| == 0 || !IsRadixDigit(s[0], radix) then ""
    else [s[0]] + LeadingDigits(s[1..], radix)
  }

  lemma {:induction false} AllDigitsAreLeading(s: string, radix: Radix)
    ensures AllDigits(s, radix) ==> LeadingDigits(s, radix) == s
    decreases |s|
  {
    if |s| > 0 && AllDigits(s, radix) {
      assert AllDigits(s[1..], radix) by {
        forall i | 0 <= i < |s| - 1 ensures IsRadixDigit(s[1..][i], radix) {
          assert s[1..][i] == s[i + 1];
        }
      }
      AllDigitsAreLeading(s[1..], radix);
      assert [s[0]] + s[1..] == s;
    }
  }

  /** The value of the leading digits of the base, NaN if there are none. */
  function ParseDigits(t: string, radix: Radix): (r: Option<int>)
    ensures r.Some? <==> |t| > 0 && IsRadixDigit(t[0], radix)
    ensures AllDigits(t, radix) && |t| > 0 ==> r == Some(Value(t, radix))
  {
    if |t| > 0 && IsRadixDigit(t[0], radix) then
      AllDigitsAreLeading(t, radix);
      Some(Value(LeadingDigits(t, radix), radix))
    else None
  }

  predicate HasHexPrefix(s: string) {
    |s| >= 2 && s[0] == '0' && (s[1] == 'x' || s[1] == 'X')
  }

  /**
   * `parseInt` with no radix, on text without leading blanks or sign: after a
   * `0x`/`0X` prefix the hexadecimal digits that follow, otherwise the leading
   * decimal digits; NaN when there are none.
   */
  function ParseInt(s: string): (r: Option<int>)
    ensures HasHexPrefix(s) ==> (r.Some? <==> |s| > 2 && IsRadixDigit(s[2], 16))
    ensures !HasHexPrefix(s) ==> (r.Some? <==> |s| > 0 && IsRadixDigit(s[0], 10))
    ensures AllDigits(s, 10) && |s| > 0 ==> r == Some(Value(s, 10))
    ensures HasHexPrefix(s) && |s| > 2 && AllDigits(s[2..], 16) ==> r == Some(Value(s[2..], 16))
    ensures !HasHexPrefix(s) && r.Some? ==> r == Some(Value(LeadingDigits(s, 10), 10))
    ensures HasHexPrefix(s) && r.Some? ==> r == Some(Value(LeadingDigits(s[2..], 16), 16))
    ensures r.Some? ==> r.value >= 0
  {
    if HasHexPrefix(s) then ParseDigits(s[2..], 16) else ParseDigits(s, 10)
  }

  /** A bare prefix is NaN, and a hexadecimal row id part would be read in base 16. */
  lemma ParseIntHexExamples()
    ensures ParseInt("0x") == None
    ensures ParseInt("0x1F") == Some(31)
    ensures ParseInt("0x1g") == Some(1)
    ensures ParseInt("12px") == Some(12)
  {
    assert "0x"[2..] == "";
    assert "0x1F"[2..] == "1F" && AllDigits("1F", 16);
    assert "1F"[..1] == "1" && Value("1", 16) == 1;
    assert "0x1g"[2..] == "1g" && LeadingDigits("1g", 16) == "1";
    assert !HasHexPrefix("12px") && LeadingDigits("12px", 10) == "12";
    assert "12"[..1] == "1" && Value("1", 10) == 1;
  }

  /** Position of the first occurrence of `c` in `s`. */
  function IndexOf(s: string, c: char): (i: nat)
    requires c in s
    ensures i < |s| && s[i] == c && c !in s[..i]
    decreases |s|
  {
    if s[0] == c then 0
    else
      var i := 1 + IndexOf(s[1..], c);
      assert s[..i] == [s[0]] + s[1..][..i - 1];
      i
  }

  /** Reference for `Split`: the parts glued back together with the separator. */
  function Join(parts: seq<string>, sep: char): string
    requires |parts| > 0
    decreases |parts|
  {
    if |parts| == 1 then parts[0] else parts[0] + [sep] + Join(parts[1..], sep)
  }

  /** `String.prototype.split` with a one-character separator. */
  function Split(s: string, sep: char): (parts: seq<string>)
    ensures |parts| > 0
    ensures Join(parts, sep) == s
    ensures forall i :: 0 <= i < |parts| ==> sep !in parts[i]
    decreases |s|
  {
    if sep !in s then [s]
    else
      var i := IndexOf(s, sep);
      var rest := Split(s[i + 1..], sep);
      assert ([s[..i]] + rest)[1..] == rest;
      assert s == s[..i] + [sep] + s[i + 1..];
      [s[..i]] + rest
  }

  /** Splitting text whose only separators are the ones shown. */
  lemma SplitAt(a: string, b: string, sep: char)
    requires sep !in a
    ensures Split(a + [sep] + b, sep) == [a] + Split(b, sep)
  {
    var s := a + [sep] + b;
    assert s[|a|] == sep;
    assert s[..|a|] == a;
    var i := IndexOf(s, sep);
    assert i == |a|;
    assert s[..i] == a && s[i + 1..] == b;
  }

  lemma SplitWhole(s: string, sep: char)
    requires sep !in s
    ensures Split(s, sep) == [s]
  {
  }

  /** The DOM id the list renderer gives the row of the entry with this id. */
  function RowId(id: int): string {
    Prefix + [Separator] + IntToString(id)
  }

  /** `itemEditClick`: element 1 of the split row id, parsed; None when it is missing or not a number. */
  function ParseRowId(rowId: string): (r: Option<int>)
    ensures |Split(rowId, Separator)| < 2 ==> r.None?
    ensures |Split(rowId, Separator)| >= 2 ==> r == ParseInt(Split(rowId, Separator)[1])
    ensures r.Some? ==> r.value >= 0
  {
    var parts := Split(rowId, Separator);
    if |parts| < 2 then None else ParseInt(parts[1])
  }

  /** For every non-negative id, the edit click reads back the id its row was rendered with. */
  lemma RowIdRoundTrip(id: int)
    requires id >= 0
    ensures ParseRowId(RowId(id)) == Some(id)
  {
    var digits := NatToString(id);
    assert Separator !in Prefix;
    assert Separator !in digits;
    assert !HasHexPrefix(digits);
    SplitAt(Prefix, digits, Separator);
    SplitWhole(digits, Separator);
  }

  /** A negative id prints as "item--n": element 1 of the split is empty, so the click reads NaN. */
  lemma NegativeRowIdIsNaN(id: int)
    requires id < 0
    ensures ParseRowId(RowId(id)) == None
  {
    var digits := NatToString(-id);
    assert Separator !in Prefix;
    assert RowId(id) == Prefix + [Separator] + ([] + [Separator] + digits);
    SplitAt(Prefix, [] + [Separator] + digits, Separator);
    SplitAt([], digits, Separator);
  }
}

=== FILE: storage.dfy ===
/**
 * The storage controller: it mirrors the item list into the single storage key
 * "items". The key is modelled as an optional list, None meaning the key is
 * absent; the JSON text in between is taken to round-trip exactly.
 */
module Storage {
  import opened Wrappers
  import opened Items

  type Slot = Option<seq<Item>>

  /** `getItemsFromStorage`: an absent key reads as the empty list. */
  function GetItemsFromStorage(slot: Slot): (items: seq<Item>)
    ensures slot.None? ==> items == []
    ensures slot.Some? ==> items == slot.value
  {
    match slot
    case None => []
    case Some(stored) => stored
  }

  /** `storeItem`: appends to the stored list, creating the key when absent. */
  function StoreItem(slot: Slot, item: Item): (r: Slot)
    ensures r.Some?
    ensures GetItemsFromStorage(r) == GetItemsFromStorage(slot) + [item]
  {
    match slot
    case None => Some([item])
    case Some(stored) => Some(stored + [item])
  }

  /**
   * `updateItemStorage`: rewrites the stored entries that carry the selection's
   * id. Parsing an absent key yields null and the scan then throws, so the key
   * must be present; the selection is dereferenced only for a non-empty list.
   */
  function UpdateItemStorage(slot: Slot, name: string, calories: int, current: Option<Item>): (r: Slot)
    requires slot.Some?
    requires |slot.value| > 0 ==> current.Some?
    ensures r.Some? && |r.value| == |slot.value|
    ensures forall i :: 0 <= i < |slot.value| ==> r.value[i].id == slot.value[i].id
    ensures forall i :: 0 <= i < |slot.value| && slot.value[i].id == current.value.id ==>
      r.value[i].name == name && r.value[i].calories == calories
    ensures forall i :: 0 <= i < |slot.value| && slot.value[i].id != current.value.id ==> r.value[i] == slot.value[i]
  {
    Some(UpdateItem(slot.value, current, name, calories))
  }

  /** `deleteItemStorage`: drops the stored entry with the selection's id; the key must be present. */
  function DeleteItemStorage(slot: Slot, current: Item): (r: Slot)
    requires slot.Some?
    requires UniqueIds(slot.value)
    ensures r.Some?
    ensures forall p :: 0 <= p < |slot.value| && slot.value[p].id == current.id ==>
      r.value == slot.value[..p] + slot.value[p + 1..]
    ensures (forall i :: 0 <= i < |slot.value| ==> slot.value[i].id != current.id) ==> r == slot
  {
    Some(DeleteItem(slot.value, current.id))
  }

  /** `clearLocalStorage`: removes the key, which then reads as the empty list. */
  function ClearLocalStorage(): (r: Slot)
    ensures r.None?
    ensures GetItemsFromStorage(r) == []
  {
    None
  }
}

=== FILE: wrappers.dfy ===
/** The optional value used for JavaScript's `null` results and for an absent storage key. */
module Wrappers {

  datatype Option<+T> = None | Some(value: T)
}
